=== FILE: README.md ===
# Personal dashboard data core, in Dafny

This project models the data logic of a browser-resident productivity dashboard: a journal, a
goal tracker, a lessons list, a spaced-repetition reviewer, a scheduled-task timeline, a daily
streak and a Pomodoro cycle timer. In the original, every store is a JavaScript class holding
an array of flat records that is read from and written back to `localStorage`. Here each store
is a `seq` of immutable datatype values, and each operation is a pure function from the old
list to the new one.

Dates are integer instants: minutes of local time since an epoch (`Dates.Instant`). A
calendar day is `t / 1440`. "Now" is an explicit parameter, and "today" is `DayOf(now)`.
Record identifiers, which the original makes from `Date.now()`, are parameters too.

Modules:

- `Wrappers`: `Option` and `Result`.
- `Seqs`: `filter`, `findIndex`, `splice` and `reduce` over sequences, with a subsequence
  predicate and lemmas about sums and filters.
- `Dates`: calendar-day equality (`isSameDay`), `setHours` and `setDate` arithmetic, the
  whole-day difference, and the per-day query shared by every store.
- `Text`: `String.prototype.trim`.
- `Journal`, `Goals`, `Lessons`, `SpacedRepetition` and `ScheduledTasks`: one module per store.
- `LessonDeletion`: lesson deletion, together with the reminders it should cascade to.
- `Streak`: the user profile's daily streak.
- `CycleTimer`: the Pomodoro timer as a one-second step function.

Two behaviours of the code shape the contracts:

- Unticking a goal leaves its stored progress unchanged, as the comment at script.js:1445
  says ("previous progress"); only the page shows 0% (script.js:1480-1484). So "progress is 100 exactly when ticked" holds in one direction only:
  `Goals.CompletedAtFull`. `Goals.UntickKeepsProgress` shows the other direction failing.
- Lesson deletion does not remove the lesson's reminders (script.js:2186-2189). See Findings.

## Model

| member | source | states |
|---|---|---|
| Seqs.Filter | script.js:2350-2353 | `filter` keeps exactly the elements that pass, each as often as in the input, in input order (a subsequence) |
| Seqs.FirstIndex | script.js:2293 | `findIndex` gives the first index whose element matches, or -1 exactly when none matches |
| Seqs.RemoveAt | script.js:2302 | `splice(i, 1)` drops element `i` and shifts the later elements down by one |
| Seqs.SumOfBounds | script.js:1537 | a sum of values in `[lo, hi]` lies between `n*lo` and `n*hi` |
| Seqs.SumOf | script.js:1537 | the `reduce` sum of non-negative values is non-negative, and zero exactly when every value is |
| Seqs.SumOfLast | script.js:1537 | `reduce` accumulates left to right: the sum of a list is the sum of all but its last element plus the last value |
| Seqs.FilterExclusive | script.js:1201-1209 | filters by two exclusive conditions share no element, and together take at most the list |
| Seqs.FilterFilter | script.js:1595-1601 | filtering a filtered list again keeps exactly the elements that pass both conditions, in order |
| Dates.Midnight | script.js:2377-2378 | `setHours(0,0,0,0)` gives a whole-day instant (a multiple of 1440 minutes) on the same day, at most one day earlier |
| Dates.SameDay | script.js:1205-1208 | `isSameDay`: two instants share a calendar day exactly when the same midnight starts both, so they are less than a day apart |
| Dates.AtTime | script.js:3053-3058 | `setHours(h, m)` with an in-range hour and minute lands on the same day, `60h+m` minutes after midnight |
| Dates.AddDays | script.js:2268-2269 | `setDate(getDate()+n)` moves `n` calendar days and keeps the time of day |
| Dates.DaysBetween | script.js:2381-2385 | the floored day difference of two midnights is the difference of their calendar days |
| Dates.OnDay | script.js:1201-1209 | a per-day query returns the records on that calendar day, in storage order, with their multiplicities |
| Dates.OnDayDisjoint | script.js:1205-1209 | queries for two different days share no record and together return at most the store |
| Text.Trim | script.js:3026-3028 | `trim` returns the contiguous middle of the input starting at its first non-space, with only white space after it and no white space at either end; it is empty exactly when the input is blank |
| Journal.EntriesForDate | script.js:1201-1203 | `getEntriesForDate` returns the entries on that calendar day, in order, with their multiplicities |
| Journal.EntriesForDateDisjoint | script.js:1201-1209 | entries returned for two different days never overlap |
| Goals.AddGoal | script.js:1232-1250 | a blank goal text is ignored; otherwise an unticked goal at 0% with the trimmed text, dated at the selected instant itself, is appended; the store invariant (progress in [0, 100], ticked implies 100%) is kept |
| Goals.ClampProgress | script.js:1343-1350 | the Apply input maps NaN to 0 and clamps everything else into [0, 100], keeping in-range values |
| Goals.UpdateGoalProgress | script.js:1363-1375 | the first goal with the id gets progress `p` and is ticked iff `p` is 100; no other goal changes; an unknown id is a no-op; "ticked implies 100%" is kept for any `p` |
| Goals.ApplyProgressInput | script.js:1340-1352 | applying a typed value keeps the goal store valid, and the goal ends ticked iff it ends at 100% |
| Goals.ToggleGoalCompletion | script.js:1439-1448 | the tick flips; ticking sets progress 100, unticking leaves progress as it was; no other goal changes; the store invariant is kept |
| Goals.DeleteGoal | script.js:1500-1504 | the first goal with the id is removed (one occurrence fewer), the goals before it keep their positions and those after it move up by one; an unknown id is a no-op; the store invariant is kept |
| Goals.GoalsForDate | script.js:1584-1586 | `getGoalsForDate` returns the goals on that calendar day, in order, each as often as it is stored |
| Goals.RoundDiv | script.js:1538 | `Math.round(a/b)` is the integer nearest to `a/b`, halves rounding up |
| Goals.RoundDivBounds | script.js:1606 | a rounded part-of-whole ratio stays within `[0, hi]` |
| Goals.TotalProgressBounds | script.js:1537 | the progress total of valid goals is at most 100 per goal |
| Goals.DayProgress | script.js:1531-1538 | the day's progress is 0 for a day without goals; otherwise it is the rounded mean progress, and in [0, 100] for valid goals |
| Goals.CompletionRate | script.js:1594-1607 | total is the number of goals dated within the inclusive range and completed the number of those that are ticked; percentage is the rounded share in [0, 100], and 0 when nothing matches |
| Goals.TickRaisesCompleted | script.js:1594-1607 | ticking an unticked goal dated in the range raises the range's completed count by one and leaves its total |
| Goals.UntickKeepsProgress | script.js:1439-1448 | unticking a ticked goal leaves it unticked at 100% |
| Goals.ToggleTwice | script.js:1439-1448 | toggling twice restores the list iff the goal was ticked or already at 100% |
| Lessons.RemoveLesson | script.js:2163-2167 | `deleteLesson` splices out the first lesson with the id: earlier lessons keep their positions, later ones move up by one, every lesson with another id is kept; an unknown id is a no-op |
| Lessons.LessonsForDate | script.js:2237-2239 | `getLessonsForDate` returns the lessons on that calendar day, in order, each as often as it is stored |
| Lessons.LessonsForDateDisjoint | script.js:2237-2245 | lessons returned for two different days never overlap |
| SpacedRepetition.AddLesson | script.js:2265-2281 | appends a reminder at stage 0, status normal, created now, due tomorrow at the current time of day, with the lesson's id and a copy of its title; stages stay on the ladder |
| SpacedRepetition.CompleteReminder | script.js:2292-2309 | stage +1; past the last of the five intervals the reminder is removed, otherwise it is due `intervals[stage]` days from today, at the current time of day, with status normal; an unknown id is a no-op |
| SpacedRepetition.RescheduleReminder | script.js:2325-2334 | the reminder is due tomorrow at the current time of day, with status normal at the same stage; nothing else changes |
| SpacedRepetition.DeleteReminder | script.js:2356-2361 | the first reminder with the id is removed: earlier reminders keep their positions, later ones move up by one; an unknown id is a no-op |
| SpacedRepetition.RemoveRemindersByLessonId | script.js:2350-2353 | exactly the reminders of other lessons survive, with their multiplicities, in original order |
| SpacedRepetition.Recheck | script.js:2380-2400 | 0 or fewer days late: normal, date kept; 1 day late: warning, date kept; 2 or more: overdue and due `intervals[stage]` days from today at the current time of day; the stage never changes |
| SpacedRepetition.CheckOverdueReminders | script.js:2376-2403 | every reminder is rechecked in place; stages stay on the ladder |
| SpacedRepetition.RemindersForDate | script.js:2508-2513 | `getRemindersForDate` returns the reminders whose review date is on that day, in order, each as often as it is stored |
| SpacedRepetition.DueBeforeToday | script.js:2549-2558 | selects exactly the reminders whose review day is before today, each as often as it is stored |
| SpacedRepetition.ReviewStats | script.js:2521-2558 | completed is the stage total (at most 4 per reminder), pending is the reminder count, overdue is the number of reminders due before today (0 iff none is) |
| SpacedRepetition.StageTotal | script.js:2533-2544 | `getCompletedReviewCount` adds up the stages: never negative, zero exactly when no reminder has climbed a stage, at most 4 per reminder on the ladder |
| SpacedRepetition.CompletionsRetire | script.js:2292-2303 | a reminder at stage `s` survives fewer than `5-s` completions, each raising its stage by one, and is removed by completion `5-s`; others are untouched |
| SpacedRepetition.CheckOverdueTwice | script.js:2376-2401 | a second recheck on the same day moves no date and turns overdue reminders back to normal |
| SpacedRepetition.OverdueCountAfterCheck | script.js:2549-2558 | after a recheck, the overdue statistic equals the number of reminders in warning |
| SpacedRepetition.CompletedStatOnComplete | script.js:2533-2543 | the completed statistic rises by 1 when a reminder climbs a stage, and falls by 4 when one retires |
| SpacedRepetition.OverdueKeepsStageExample | script.js:2390-2396 | a stage-2 reminder two days late becomes overdue, due in 21 days, still at stage 2 |
| LessonDeletion.DeleteLessonAsWritten | script.js:2158-2190 | as written: the lesson is removed, the reminders are unchanged, and the call throws iff the lesson existed |
| LessonDeletion.AsWrittenLeavesOrphan | script.js:2186-2189 | deleting a lesson as written leaves its reminder stored and still shown on its day, pointing at no lesson |
| LessonDeletion.DeleteLesson | script.js:2158-2190 | the corrected cascade removes the lesson and, through `removeRemindersByLessonId`, its reminders; an unknown id is a no-op |
| LessonDeletion.DeleteLessonCascades | script.js:2350-2353 | after the cascade, no reminder of that lesson is stored or returned for any day; others are kept; no reminder is left pointing at a missing lesson |
| ScheduledTasks.To24Hour | script.js:3046-3050 | a 1..12 hour with AM/PM maps into 0..23, and the result is afternoon iff PM |
| ScheduledTasks.To12Hour | script.js:493-499 | `formatTime`'s `h % 12 \|\| 12` with PM from 12 gives a 1..12 hour, and `To24Hour` inverts it on 0..23 |
| ScheduledTasks.ClockRoundTrip | script.js:493-499 | formatting a converted form hour gives back the form's hour and meridiem |
| ScheduledTasks.SaveTask | script.js:3025-3076 | blank name refused; then end <= start refused (the store unchanged); otherwise one task with trimmed texts is appended, starting and ending at the form's 24-hour times on the selected day |
| ScheduledTasks.RejectsBackwardsExample | script.js:3060-3064 | a 2:00 PM to 1:00 PM task is refused |
| ScheduledTasks.TasksForDate | script.js:3094-3100 | `getTasksForDate` returns the tasks that start on that day, in order, each as often as it is stored |
| ScheduledTasks.SavedTaskFoundOnItsDay | script.js:3066-3074 | a saved task is found on the selected day and on no other day, with days counted at UTC offset 0 |
| Streak.UpdateStreak | script.js:83-107 | last active yesterday: +1; earlier: reset to 1; otherwise unchanged; the last-active day becomes today |
| Streak.UpdateStreakIdempotent | script.js:83-107 | a second update on the same day changes nothing |
| Streak.ConsecutiveDays | script.js:83-107 | `n` daily updates add `n` after a day of use, and count `n` afresh after a gap |
| CycleTimer.OrDefault | script.js:3507-3510 | `parseInt(v) * k \|\| d`: a missing or zero value takes the default, any other value is the scaled input |
| CycleTimer.Start | script.js:3498-3533 | a running timer is left alone, a paused one resumes, a stopped one starts work phase 0 with its settings read as minutes (defaults 25, 5, 15) and a cycle count (default 4) |
| CycleTimer.Pause | script.js:3536-3541 | only a running, unpaused timer becomes paused |
| CycleTimer.PauseThenStart | script.js:3497-3541 | pausing a running timer and starting it again resumes exactly the state it had |
| CycleTimer.Reset | script.js:3543-3550 | stopped at the start of work phase 0 with the work duration, settings kept |
| CycleTimer.Tick | script.js:3569-3624 | one second: time -1; at zero, work leads to a break or (once the count reaches the total) to the long break; a break leads to work, the settings unchanged; the long break resets; the phase invariant is kept |
| CycleTimer.RunKeepsInv | script.js:3569-3624 | however many seconds pass, the phase invariant holds and the settings are unchanged |

## Left out

- DOM construction, rendering, toasts, confirmation prompts and the mobile layout. Prompts are
  treated as already accepted.
- `localStorage` persistence and the `window.app` global. Stores are passed and returned
  explicitly.
- Time zones, daylight-saving time and the `Date` library. Instants are local minutes. A day
  is always 1440 minutes, and `setDate` and `setHours` are plain arithmetic.
- ScheduledTasks.TasksForDate: the original keys by the UTC ISO date of the start time. The
  model uses the local calendar day, which is the same only at UTC offset 0.
- Goals.CompletionRate: its percentage is the exact share rounded half up. The original
  computes `Math.round((completed / total) * 100)` in floating point. The division is
  inexact, so the result can differ on a half: for 29 of 200 goals, `0.145 * 100` falls just
  below 14.5 and rounds to 14, while the exact share rounds to 15. Total and completed are
  exact in both.
- Text.Trim: recognises ASCII white space, NBSP and BOM only. JavaScript's `trim` also strips
  the other Unicode space separators (U+1680, U+2000 to U+200A, U+202F, U+205F, U+3000) and
  the line terminators U+2028 and U+2029.
- Journal saving (`Journal.saveEntry`). Its time logic assigns to a `const`, which throws.
  Only the per-day query is modelled.
- Lesson and subject creation, editing, subject deletion, and the by-subject views. These are
  form handling around list pushes.
- `Summary` (ISO week numbering, HTML reports) and the clock, countdown and progress timers.
  They are driven by `setInterval` and `Date.now`, and use floating-point percentages.
- Audio and `Notification` side effects of the cycle timer.
- The `isAllDay`, `isMultiDay` and `startHour` task fields. Rendering reads them, but
  `saveTask` never sets them.
- The spaced-repetition display lists (today and upcoming) in `updateRemindersDisplay`.
- Streak.UpdateStreak: the original defines `updateStreak` but never calls it. It is
  modelled as written.

## Findings

| source | as written | input that shows it | evidently intended | confidence | as-written member | corrected member |
|---|---|---|---|---|---|---|
| script.js:2186-2189 | `deleteLesson` calls `spacedRepetition.deleteRemindersByLessonId`, which no class defines. The call throws after the lesson is spliced out and saved, so no reminder is removed. | One lesson `L` with one reminder for `L`; delete `L`. | Remove the lesson's reminders with `removeRemindersByLessonId` (script.js:2350-2353), as the confirmation text promises. | high (not executed) | LessonDeletion.DeleteLessonAsWritten, LessonDeletion.AsWrittenLeavesOrphan | LessonDeletion.DeleteLesson, LessonDeletion.DeleteLessonCascades |

=== FILE: cycle_timer.dfy ===
/** The Pomodoro cycle timer (`TimerModule`'s `cycle` timer) as a pure state machine stepped
    once per second: work and short breaks alternate until the last work phase, which is
    followed by a long break, after which the timer resets. */
module CycleTimer {
  import opened Wrappers

  datatype Phase = Work | Break | LongBreak

  /** `timers.cycle`; durations and the remaining time are in seconds. */
  datatype Cycle = Cycle(isRunning: bool, isPaused: bool, phase: Phase, workDuration: int,
                         breakDuration: int, longBreakDuration: int, currentTime: int,
                         cycleCount: int, totalCycles: int)

  /** The phase structure every reachable state keeps: work phases are numbered from 0 below
      the cycle total (or 0 when the total is not positive), a break follows a work phase that
      was not the last, and the long break comes after exactly `max(totalCycles, 1)` of them. */
  predicate Inv(c: Cycle)
  {
    && c.cycleCount >= 0
    && (c.phase == Work ==> c.cycleCount < c.totalCycles || c.cycleCount == 0)
    && (c.phase == Break ==> 1 <= c.cycleCount < c.totalCycles)
    && (c.phase == LongBreak ==> c.cycleCount == if c.totalCycles >= 1 then c.totalCycles else 1)
  }

  /** `parseInt(input) * scale || fallback`: a missing or zero value takes the fallback. */
  function OrDefault(input: Option<int>, scale: int, fallback: int): (v: int)
    ensures input.None? ==> v == fallback
    ensures input.Some? && input.value * scale != 0 ==> v == input.value * scale
    ensures input.Some? && input.value * scale == 0 ==> v == fallback
    ensures v != 0 || fallback == 0
  {
    match input
    case None => fallback
    case Some(x) => if x * scale == 0 then fallback else x * scale
  }

  /** `startCycleTimer`: a running, unpaused timer is left alone; a paused one resumes as it
      was; a stopped one reads its settings (minutes and a cycle count, with defaults of 25, 5,
      15 and 4) and starts the first work phase. */
  function Start(c: Cycle, workMinutes: Option<int>, breakMinutes: Option<int>,
                 longBreakMinutes: Option<int>, cycles: Option<int>): (d: Cycle)
    ensures c.isRunning && !c.isPaused ==> d == c
    ensures c.isRunning && c.isPaused ==> d == c.(isPaused := false)
    ensures !c.isRunning ==>
      && d.isRunning && !d.isPaused
      && d.phase == Work && d.cycleCount == 0
      && d.currentTime == d.workDuration != 0
      && d.breakDuration != 0 && d.longBreakDuration != 0 && d.totalCycles != 0
      && d.workDuration == OrDefault(workMinutes, 60, 25 * 60)
      && d.breakDuration == OrDefault(breakMinutes, 60, 5 * 60)
      && d.longBreakDuration == OrDefault(longBreakMinutes, 60, 15 * 60)
      && d.totalCycles == OrDefault(cycles, 1, 4)
    ensures Inv(c) ==> Inv(d)
    ensures !c.isRunning ==> Inv(d)
  {
    if c.isRunning && !c.isPaused then c
    else if c.isRunning then c.(isPaused := false)
    else
      var work := OrDefault(workMinutes, 60, 25 * 60);
      Cycle(true, false, Work, work, OrDefault(breakMinutes, 60, 5 * 60),
            OrDefault(longBreakMinutes, 60, 15 * 60), work, 0, OrDefault(cycles, 1, 4))
  }

  /** `pauseCycleTimer`: only a running, unpaused timer becomes paused. */
  function Pause(c: Cycle): (d: Cycle)
    ensures c.isRunning && !c.isPaused ==> d == c.(isPaused := true)
    ensures !(c.isRunning && !c.isPaused) ==> d == c
  {
    if c.isRunning && !c.isPaused then c.(isPaused := true) else c
  }

  /** Pausing a running timer and starting it again resumes it exactly as it was, whatever
      the settings fields hold. */
  lemma PauseThenStart(c: Cycle, workMinutes: Option<int>, breakMinutes: Option<int>,
                       longBreakMinutes: Option<int>, cycles: Option<int>)
    requires c.isRunning && !c.isPaused
    ensures Start(Pause(c), workMinutes, breakMinutes, longBreakMinutes, cycles) == c
  {
  }

  /** `resetCycleTimer`: stopped, at the start of the first work phase, settings kept. */
  function Reset(c: Cycle): (d: Cycle)
    ensures Inv(d)
    ensures !d.isRunning && !d.isPaused && d.phase == Work && d.cycleCount == 0
    ensures d.currentTime == c.workDuration
    ensures d == c.(isRunning := d.isRunning, isPaused := d.isPaused, phase := d.phase,
                    currentTime := d.currentTime, cycleCount := d.cycleCount)
  {
    c.(isRunning := false, isPaused := false, currentTime := c.workDuration, phase := Work,
       cycleCount := 0)
  }

  /** `updateCycleTimer`, one second: the remaining time drops by one; when it reaches zero a
      work phase is counted and followed by a break, or by the long break once the count
      reaches the total; a break is followed by work; the long break ends in a reset. */
  function Tick(c: Cycle): (d: Cycle)
    ensures c.currentTime - 1 > 0 ==> d == c.(currentTime := c.currentTime - 1)
    ensures c.currentTime - 1 <= 0 && c.phase == Work ==>
      && d.cycleCount == c.cycleCount + 1
      && (d.cycleCount < c.totalCycles ==> d.phase == Break && d.currentTime == c.breakDuration)
      && (d.cycleCount >= c.totalCycles ==> d.phase == LongBreak && d.currentTime == c.longBreakDuration)
    ensures c.currentTime - 1 <= 0 && c.phase == Break ==>
      d.phase == Work && d.currentTime == c.workDuration && d.cycleCount == c.cycleCount
    ensures c.currentTime - 1 <= 0 && c.phase == LongBreak ==> d == Reset(c)
    ensures c.currentTime - 1 <= 0 && c.phase != LongBreak ==>
      d == c.(currentTime := d.currentTime, phase := d.phase, cycleCount := d.cycleCount)
    ensures Inv(c) ==> Inv(d)
  {
    var t := c.currentTime - 1;
    if t > 0 then c.(currentTime := t)
    else
      match c.phase
      case Work =>
        var n := c.cycleCount + 1;
        if n < c.totalCycles then c.(currentTime := c.breakDuration, phase := Break, cycleCount := n)
        else c.(currentTime := c.longBreakDuration, phase := LongBreak, cycleCount := n)
      case Break => c.(currentTime := c.workDuration, phase := Work)
      case LongBreak => Reset(c)
  }

  /** The state after `n` seconds. */
  function Run(c: Cycle, n: nat): Cycle
    decreases n
  {
    if n == 0 then c else Run(Tick(c), n - 1)
  }

  /** However long the timer runs, the phase structure holds and the settings are unchanged. */
  lemma {:induction false} RunKeepsInv(c: Cycle, n: nat)
    requires Inv(c)
    ensures Inv(Run(c, n))
    ensures Run(c, n).totalCycles == c.totalCycles && Run(c, n).workDuration == c.workDuration
    decreases n
  {
    if n > 0 {
      RunKeepsInv(Tick(c), n - 1);
    }
  }
}

=== FILE: dates.dfy ===
/** Calendar days over integer instants: the `isSameDay` helper every store repeats, the
    `setHours`/`setDate` arithmetic the stores use to build dates, and the per-day filter
    contract shared by `getEntriesForDate`, `getGoalsForDate`, `getLessonsForDate`,
    `getRemindersForDate` and `getTasksForDate`. */
module Dates {
  import opened Seqs

  const MinutesPerDay: int := 1440

  /** A point in local time, in minutes since the local epoch. */
  type Instant = int

  /** The calendar day an instant falls on (its local midnight, counted in days). */
  function DayOf(t: Instant): int
  {
    t / MinutesPerDay
  }

  /** `isSameDay`: equal (year, month, day) in the local calendar, that is, the same midnight
      starts both instants' days; two such instants are less than a day apart. */
  predicate SameDay(a: Instant, b: Instant): (r: bool)
    ensures r <==> a - a % MinutesPerDay == b - b % MinutesPerDay
    ensures r ==> -MinutesPerDay < a - b < MinutesPerDay
  {
    DayOf(a) == DayOf(b)
  }

  /** `d.setHours(0, 0, 0, 0)`: the midnight that starts `t`'s day. */
  function Midnight(t: Instant): (m: Instant)
    ensures SameDay(m, t)
    ensures m % MinutesPerDay == 0
    ensures m <= t < m + MinutesPerDay
  {
    DayOf(t) * MinutesPerDay
  }

  /** `new Date(day); d.setHours(hour, minute, 0, 0)`; hours and minutes out of range roll
      over into neighbouring days exactly as `setHours` does. */
  function AtTime(day: int, hour: int, minute: int): (t: Instant)
    ensures 0 <= hour < 24 && 0 <= minute < 60 ==>
      DayOf(t) == day && t - Midnight(t) == hour * 60 + minute
  {
    day * MinutesPerDay + hour * 60 + minute
  }

  /** `d.setDate(d.getDate() + n)`: the same time of day, `n` days later. */
  function AddDays(t: Instant, n: int): (r: Instant)
    ensures DayOf(r) == DayOf(t) + n
    ensures r - Midnight(r) == t - Midnight(t)
  {
    t + n * MinutesPerDay
  }

  /** `Math.floor((today - reviewDate) / (1000 * 60 * 60 * 24))` with both dates set to
      midnight: the number of whole calendar days from `later` back to `earlier`. */
  function DaysBetween(earlier: Instant, later: Instant): (d: int)
    ensures d == DayOf(later) - DayOf(earlier)
  {
    (Midnight(later) - Midnight(earlier)) / MinutesPerDay
  }

  /** The records of `xs` whose date, as read by `dateOf`, lies on `date`'s calendar day,
      in storage order. */
  function OnDay<T(==,!new)>(xs: seq<T>, dateOf: T -> Instant, date: Instant): (r: seq<T>)
    ensures IsSubseq(r, xs)
    ensures forall x :: x in r <==> x in xs && SameDay(dateOf(x), date)
    ensures forall x :: multiset(r)[x] == if SameDay(dateOf(x), date) then multiset(xs)[x] else 0
  {
    Filter(xs, x => SameDay(dateOf(x), date))
  }

  /** Queries for two different calendar days share no record, and between them return no
      more records than the store holds. */
  lemma OnDayDisjoint<T(!new)>(xs: seq<T>, dateOf: T -> Instant, d1: Instant, d2: Instant)
    requires !SameDay(d1, d2)
    ensures forall x :: !(x in OnDay(xs, dateOf, d1) && x in OnDay(xs, dateOf, d2))
    ensures |OnDay(xs, dateOf, d1)| + |OnDay(xs, dateOf, d2)| <= |xs|
  {
    FilterExclusive(xs, x => SameDay(dateOf(x), d1), x => SameDay(dateOf(x), d2));
  }
}

=== FILE: goals.dfy ===
/** The goals store (`class Goals`): per-day goals whose 0..100 progress and completion
    flag are kept coupled, plus the two aggregates the dashboard shows. */
module Goals {
  import opened Wrappers
  import opened Seqs
  import opened Dates
  import opened Text

  datatype Goal = Goal(id: string, text: string, date: Instant, completed: bool, progress: int)

  /** `goals.findIndex(goal => goal.id === id)`. */
  function IndexOf(goals: seq<Goal>, id: string): int
  {
    FirstIndex(goals, (g: Goal) => g.id == id)
  }

  /** Every stored progress value is a percentage. */
  predicate ProgressInRange(goals: seq<Goal>)
  {
    forall i :: 0 <= i < |goals| ==> 0 <= goals[i].progress <= 100
  }

  /** A ticked goal is always at 100%. (The converse is not kept: see `UntickKeepsProgress`.) */
  predicate CompletedAtFull(goals: seq<Goal>)
  {
    forall i :: 0 <= i < |goals| ==> goals[i].completed ==> goals[i].progress == 100
  }

  /** The invariant every stored goal list satisfies. */
  predicate Valid(goals: seq<Goal>)
  {
    ProgressInRange(goals) && CompletedAtFull(goals)
  }

  /** `addGoal`: a blank (after trimming) input is ignored; otherwise a fresh, unticked goal at
      0% is appended for the selected date. */
  function AddGoal(goals: seq<Goal>, id: string, input: string, selectedDate: Instant): (r: seq<Goal>)
    ensures IsBlank(input) ==> r == goals
    ensures !IsBlank(input) ==>
      && |r| == |goals| + 1
      && r[..|goals|] == goals
      && r[|goals|].id == id
      && r[|goals|].text == Trim(input) != []
      && r[|goals|].date == selectedDate
      && !r[|goals|].completed
      && r[|goals|].progress == 0
    ensures Valid(goals) ==> Valid(r)
  {
    var text := Trim(input);
    if text == [] then goals
    else goals + [Goal(id, text, selectedDate, false, 0)]
  }

  /** The Apply button's input handling: `parseInt` yielding NaN becomes 0, any other value
      is clamped into [0, 100]. */
  function ClampProgress(input: Option<int>): (p: int)
    ensures 0 <= p <= 100
    ensures input.None? ==> p == 0
    ensures input.Some? && 0 <= input.value <= 100 ==> p == input.value
    ensures input.Some? && input.value < 0 ==> p == 0
    ensures input.Some? && 100 < input.value ==> p == 100
  {
    match input
    case None => 0
    case Some(v) => if v < 0 then 0 else if v > 100 then 100 else v
  }

  /** `updateGoalProgress`: the first goal with `id` takes progress `p` and is ticked exactly
      when `p` is 100; nothing else changes, and an unknown id changes nothing. */
  function UpdateGoalProgress(goals: seq<Goal>, id: string, p: int): (r: seq<Goal>)
    ensures |r| == |goals|
    ensures IndexOf(goals, id) == -1 ==> r == goals
    ensures forall i :: 0 <= i < |goals| && i != IndexOf(goals, id) ==> r[i] == goals[i]
    ensures var k := IndexOf(goals, id);
      k != -1 ==>
        && r[k].id == id
        && r[k].progress == p
        && (r[k].completed <==> p == 100)
        && r[k] == goals[k].(progress := r[k].progress, completed := r[k].completed)
    ensures CompletedAtFull(goals) ==> CompletedAtFull(r)
  {
    var k := IndexOf(goals, id);
    if k == -1 then goals
    else
      var g := goals[k].(progress := p);
      var g' := if p == 100 then g.(completed := true)
                else if g.completed then g.(completed := false)
                else g;
      goals[k := g']
  }

  /** The Apply button: the clamped input is written with `updateGoalProgress`. */
  function ApplyProgressInput(goals: seq<Goal>, id: string, input: Option<int>): (r: seq<Goal>)
    requires Valid(goals)
    ensures Valid(r)
    ensures |r| == |goals|
    ensures var k := IndexOf(goals, id);
      k != -1 ==> r[k].progress == ClampProgress(input) && (r[k].completed <==> r[k].progress == 100)
  {
    UpdateGoalProgress(goals, id, ClampProgress(input))
  }

  /** `toggleGoalCompletion`: the first goal with `id` flips its tick; becoming ticked sets its
      progress to 100, becoming unticked leaves the stored progress as it was. */
  function ToggleGoalCompletion(goals: seq<Goal>, id: string): (r: seq<Goal>)
    ensures |r| == |goals|
    ensures IndexOf(goals, id) == -1 ==> r == goals
    ensures forall i :: 0 <= i < |goals| && i != IndexOf(goals, id) ==> r[i] == goals[i]
    ensures var k := IndexOf(goals, id);
      k != -1 ==>
        && r[k].completed == !goals[k].completed
        && (r[k].completed ==> r[k].progress == 100)
        && (!r[k].completed ==> r[k].progress == goals[k].progress)
        && r[k] == goals[k].(progress := r[k].progress, completed := r[k].completed)
    ensures Valid(goals) ==> Valid(r)
  {
    var k := IndexOf(goals, id);
    if k == -1 then goals
    else
      var g := goals[k].(completed := !goals[k].completed);
      goals[k := if g.completed then g.(progress := 100) else g]
  }

  /** `deleteGoal`: the first goal with `id` is removed, the rest keep their order. */
  function DeleteGoal(goals: seq<Goal>, id: string): (r: seq<Goal>)
    ensures IndexOf(goals, id) == -1 ==> r == goals
    ensures IndexOf(goals, id) != -1 ==>
      |r| == |goals| - 1 && multiset(r) + multiset{goals[IndexOf(goals, id)]} == multiset(goals)
    ensures var k := IndexOf(goals, id);
      k != -1 ==>
        && (forall j :: 0 <= j < k ==> r[j] == goals[j])
        && (forall j :: k <= j < |r| ==> r[j] == goals[j + 1])
    ensures forall g :: g in r ==> g in goals
    ensures Valid(goals) ==> Valid(r)
  {
    var k := IndexOf(goals, id);
    if k == -1 then goals
    else
      assert goals == goals[..k] + [goals[k]] + goals[k + 1..];
      var r := RemoveAt(goals, k);
      assert forall i :: 0 <= i < |r| ==> r[i] in goals;
      r
  }

  /** `getGoalsForDate`. */
  function GoalsForDate(goals: seq<Goal>, date: Instant): (r: seq<Goal>)
    ensures IsSubseq(r, goals)
    ensures forall g :: g in r <==> g in goals && SameDay(g.date, date)
    ensures forall g :: multiset(r)[g] == if SameDay(g.date, date) then multiset(goals)[g] else 0
  {
    OnDay(goals, (g: Goal) => g.date, date)
  }

  /** `Math.round(a / b)` for a positive `b`, computed exactly: the integer nearest to `a / b`,
      halves rounding up. */
  function RoundDiv(a: int, b: int): (r: int)
    requires b > 0
    ensures 2 * b * r - b <= 2 * a < 2 * b * r + b
  {
    (2 * a + b) / (2 * b)
  }

  /** A rounded ratio of a part to its whole is a percentage-like bound: if `0 <= a <= b * hi`
      then `0 <= RoundDiv(a, b) <= hi`. */
  lemma RoundDivBounds(a: int, b: int, hi: int)
    requires b > 0
    ensures 0 <= a <= b * hi ==> 0 <= RoundDiv(a, b) <= hi
  {
    var r := RoundDiv(a, b);
    if 0 <= a <= b * hi {
      SignOfProduct(b, 2 * r + 1);
      assert b * (2 * r - 1 - 2 * hi) <= 0;
      SignOfProduct(b, 2 * r - 1 - 2 * hi);
    }
  }

  /** A positive factor does not change the sign of a product. */
  lemma SignOfProduct(b: int, x: int)
    requires b > 0
    ensures b * x > 0 ==> x > 0
    ensures b * x <= 0 ==> x <= 0
  {
  }

  /** The total of the progress values of a list of goals. */
  function TotalProgress(goals: seq<Goal>): int
  {
    SumOf(goals, (g: Goal) => g.progress)
  }

  /** Progress values that are percentages add up to at most 100 per goal. */
  lemma TotalProgressBounds(goals: seq<Goal>)
    ensures ProgressInRange(goals) ==> 0 <= TotalProgress(goals) <= 100 * |goals|
  {
    if ProgressInRange(goals) {
      SumOfBounds(goals, (g: Goal) => g.progress, 0, 100);
    }
  }

  /** The "Day's Progress" bar: the average progress of a day's goals, rounded; 0 for a day
      without goals. */
  function DayProgress(dayGoals: seq<Goal>): (r: int)
    ensures |dayGoals| == 0 ==> r == 0
    ensures |dayGoals| > 0 ==>
      2 * |dayGoals| * r - |dayGoals| <= 2 * TotalProgress(dayGoals) < 2 * |dayGoals| * r + |dayGoals|
    ensures ProgressInRange(dayGoals) ==> 0 <= r <= 100
  {
    if |dayGoals| == 0 then 0
    else
      var n := |dayGoals|;
      var total := TotalProgress(dayGoals);
      TotalProgressBounds(dayGoals);
      RoundDivBounds(total, n, 100);
      RoundDiv(total, n)
  }

  /** The goal is dated within the inclusive range `start..end`. */
  predicate InRange(g: Goal, start: Instant, end: Instant) {
    start <= g.date <= end
  }

  /** The goal is dated within the range and ticked. */
  predicate DoneInRange(g: Goal, start: Instant, end: Instant) {
    InRange(g, start, end) && g.completed
  }

  /** The ticked goals among those in range are the goals that are `DoneInRange`. */
  lemma {:induction false} DoneInRangeFilter(goals: seq<Goal>, start: Instant, end: Instant)
    ensures Filter(Filter(goals, (g: Goal) => InRange(g, start, end)), (g: Goal) => g.completed)
         == Filter(goals, (g: Goal) => DoneInRange(g, start, end))
  {
    FilterFilter(goals, (g: Goal) => InRange(g, start, end), (g: Goal) => g.completed,
                 (g: Goal) => DoneInRange(g, start, end));
  }

  /** The result of `getCompletionRate`. */
  datatype Rate = Rate(total: nat, completed: nat, percentage: int)

  /** `getCompletionRate(startDate, endDate)`: the goals dated within the inclusive range, how
      many of them are ticked, and that share as a rounded percentage (0 when none match). */
  function CompletionRate(goals: seq<Goal>, start: Instant, end: Instant): (rate: Rate)
    ensures rate.total <= |goals|
    ensures rate.completed <= rate.total
    ensures 0 <= rate.percentage <= 100
    ensures rate.total == 0 ==> rate.completed == 0 && rate.percentage == 0
    ensures rate.total > 0 ==>
      2 * rate.total * rate.percentage - rate.total <= 200 * rate.completed
      < 2 * rate.total * rate.percentage + rate.total
    ensures rate.total == |Filter(goals, (g: Goal) => InRange(g, start, end))|
    ensures rate.completed == |Filter(goals, (g: Goal) => DoneInRange(g, start, end))|
  {
    var inRange := Filter(goals, (g: Goal) => InRange(g, start, end));
    var done := Filter(inRange, (g: Goal) => g.completed);
    DoneInRangeFilter(goals, start, end);
    var total := |inRange|;
    if total == 0 then Rate(0, 0, 0)
    else
      RoundDivBounds(100 * |done|, total, 100);
      Rate(total, |done|, RoundDiv(100 * |done|, total))
  }

  /** Unticking a ticked goal leaves its stored progress at 100: after `toggleGoalCompletion`
      a goal can be at 100% and unticked, so only `CompletedAtFull` is an invariant. */
  lemma UntickKeepsProgress(goals: seq<Goal>, id: string)
    requires Valid(goals)
    requires IndexOf(goals, id) != -1 && goals[IndexOf(goals, id)].completed
    ensures var r := ToggleGoalCompletion(goals, id); var k := IndexOf(goals, id);
      !r[k].completed && r[k].progress == 100
  {
  }

  /** Toggling the same goal twice gives back the original list exactly when the goal was
      ticked or already at 100%; otherwise its progress ends at 100. */
  lemma ToggleTwice(goals: seq<Goal>, id: string)
    requires Valid(goals)
    requires IndexOf(goals, id) != -1
    ensures var k := IndexOf(goals, id);
      ToggleGoalCompletion(ToggleGoalCompletion(goals, id), id) == goals
      <==> goals[k].completed || goals[k].progress == 100
  {
  }

  /** Ticking an unticked goal dated within the range adds one to the range's completed count
      and leaves its total unchanged. */
  lemma TickRaisesCompleted(goals: seq<Goal>, id: string, start: Instant, end: Instant)
    requires IndexOf(goals, id) != -1
    requires !goals[IndexOf(goals, id)].completed && InRange(goals[IndexOf(goals, id)], start, end)
    ensures var before := CompletionRate(goals, start, end);
      var after := CompletionRate(ToggleGoalCompletion(goals, id), start, end);
      after.total == before.total && after.completed == before.completed + 1
  {
    var k := IndexOf(goals, id);
    var r := ToggleGoalCompletion(goals, id);
    assert r == goals[k := r[k]];
    FilterCountUpdate(goals, k, r[k], (g: Goal) => InRange(g, start, end));
    FilterCountUpdate(goals, k, r[k], (g: Goal) => DoneInRange(g, start, end));
  }
}

=== FILE: journal.dfy ===
/** The journal store (`class Journal`): timestamped entries queried one calendar day at a
    time. */
module Journal {
  import opened Seqs
  import opened Dates

  /** The time-of-day tag chosen in the entry form (`'none'` when unset). */
  datatype TimeOfDay = Morning | Noon | Afternoon | Evening | Unset

  datatype Entry = Entry(id: string, date: Instant, content: string, timeOfDay: TimeOfDay)

  /** `getEntriesForDate`: the entries written on `date`'s calendar day, in storage order. */
  function EntriesForDate(entries: seq<Entry>, date: Instant): (r: seq<Entry>)
    ensures IsSubseq(r, entries)
    ensures forall e :: e in r <==> e in entries && SameDay(e.date, date)
    ensures forall e :: multiset(r)[e] == if SameDay(e.date, date) then multiset(entries)[e] else 0
  {
    OnDay(entries, (e: Entry) => e.date, date)
  }

  /** Entries returned for two different days never overlap. */
  lemma EntriesForDateDisjoint(entries: seq<Entry>, d1: Instant, d2: Instant)
    requires !SameDay(d1, d2)
    ensures forall e :: !(e in EntriesForDate(entries, d1) && e in EntriesForDate(entries, d2))
    ensures |EntriesForDate(entries, d1)| + |EntriesForDate(entries, d2)| <= |entries|
  {
    OnDayDisjoint(entries, (e: Entry) => e.date, d1, d2);
  }
}

=== FILE: lesson_deletion.dfy ===
/** `Lessons.deleteLesson` together with the reminders it is meant to cascade to. The code
    calls `spacedRepetition.deleteRemindersByLessonId`, which no class defines, so the call
    throws after the lesson is already removed and saved; `DeleteLessonAsWritten` models that,
    and `DeleteLesson` the intended cascade through `removeRemindersByLessonId`. */
module LessonDeletion {
  import opened Wrappers
  import opened Dates
  import opened Lessons
  import opened SpacedRepetition

  /** The two stores a lesson deletion touches. */
  datatype Stores = Stores(lessons: seq<Lesson>, reminders: seq<Reminder>)

  /** No reminder refers to a lesson that is not stored. */
  predicate NoOrphans(s: Stores)
  {
    forall x :: x in s.reminders ==> exists l :: l in s.lessons && l.id == x.lessonId
  }

  /** The outcome of the deletion as written: the stores afterwards, and whether the missing
      method call threw a `TypeError`. */
  datatype Outcome = Outcome(stores: Stores, threw: bool)

  /** `deleteLesson` as written: the lesson is spliced out and saved, then the call to the
      undefined method throws and no reminder is removed. */
  function DeleteLessonAsWritten(s: Stores, id: string): (o: Outcome)
    ensures o.stores.reminders == s.reminders
    ensures o.stores.lessons == RemoveLesson(s.lessons, id)
    ensures o.threw <==> Lessons.IndexOf(s.lessons, id) != -1
  {
    if Lessons.IndexOf(s.lessons, id) == -1 then Outcome(s, false)
    else Outcome(Stores(RemoveLesson(s.lessons, id), s.reminders), true)
  }

  /** A store with one lesson and one reminder for it. */
  function OneLessonStore(): Stores
  {
    Stores([Lesson("L", 0, "t", "c", None)], [Reminder("R", "L", "t", 0, AddDays(0, 1), Normal, 0)])
  }

  /** Deleting the lesson of `OneLessonStore` as written leaves its reminder behind, still due
      tomorrow, pointing at a lesson that no longer exists. */
  lemma AsWrittenLeavesOrphan()
    ensures NoOrphans(OneLessonStore())
    ensures var o := DeleteLessonAsWritten(OneLessonStore(), "L");
      && o.threw
      && o.stores.lessons == []
      && !NoOrphans(o.stores)
      && RemindersForDate(o.stores.reminders, AddDays(0, 1)) == o.stores.reminders != []
  {
  }

  /** `deleteLesson` with the intended cascade: the lesson is spliced out and every reminder
      for that lesson id is removed; an unknown lesson id changes nothing. */
  function DeleteLesson(s: Stores, id: string): (r: Stores)
    ensures r.lessons == RemoveLesson(s.lessons, id)
    ensures Lessons.IndexOf(s.lessons, id) == -1 ==> r == s
    ensures Lessons.IndexOf(s.lessons, id) != -1 ==>
      r.reminders == RemoveRemindersByLessonId(s.reminders, id)
    ensures WellStaged(s.reminders) ==> WellStaged(r.reminders)
  {
    if Lessons.IndexOf(s.lessons, id) == -1 then s
    else Stores(RemoveLesson(s.lessons, id), RemoveRemindersByLessonId(s.reminders, id))
  }

  /** After the cascade no reminder for the deleted lesson is stored or returned for any day,
      every reminder for another lesson is kept, and a store without orphans stays so. */
  lemma DeleteLessonCascades(s: Stores, id: string, date: Instant)
    requires Lessons.IndexOf(s.lessons, id) != -1
    ensures var r := DeleteLesson(s, id);
      && (forall x :: x in r.reminders ==> x.lessonId != id)
      && (forall x :: x in RemindersForDate(r.reminders, date) ==> x.lessonId != id)
      && (forall x :: x in s.reminders && x.lessonId != id ==> x in r.reminders)
      && (NoOrphans(s) ==> NoOrphans(r))
  {
  }
}

=== FILE: lessons.dfy ===
/** The lessons store (`class Lessons`): dated lessons with an optional, weakly referenced
    subject. */
module Lessons {
  import opened Wrappers
  import opened Seqs
  import opened Dates

  datatype Lesson = Lesson(id: string, date: Instant, title: string, content: string,
                           subjectId: Option<string>)

  /** `lessons.findIndex(lesson => lesson.id === id)`. */
  function IndexOf(lessons: seq<Lesson>, id: string): int
  {
    FirstIndex(lessons, (l: Lesson) => l.id == id)
  }

  /** The part of `deleteLesson` that touches this store: the first lesson with `id` is spliced
      out, and an unknown id changes nothing. */
  function RemoveLesson(lessons: seq<Lesson>, id: string): (r: seq<Lesson>)
    ensures IndexOf(lessons, id) == -1 ==> r == lessons
    ensures IndexOf(lessons, id) != -1 ==>
      |r| == |lessons| - 1 && multiset(r) + multiset{lessons[IndexOf(lessons, id)]} == multiset(lessons)
    ensures var k := IndexOf(lessons, id);
      k != -1 ==>
        && (forall j :: 0 <= j < k ==> r[j] == lessons[j])
        && (forall j :: k <= j < |r| ==> r[j] == lessons[j + 1])
    ensures forall l :: l in lessons && l.id != id ==> l in r
  {
    var k := IndexOf(lessons, id);
    if k == -1 then lessons
    else
      assert lessons == lessons[..k] + [lessons[k]] + lessons[k + 1..];
      RemoveAt(lessons, k)
  }

  /** `getLessonsForDate`. */
  function LessonsForDate(lessons: seq<Lesson>, date: Instant): (r: seq<Lesson>)
    ensures IsSubseq(r, lessons)
    ensures forall l :: l in r <==> l in lessons && SameDay(l.date, date)
    ensures forall l :: multiset(r)[l] == if SameDay(l.date, date) then multiset(lessons)[l] else 0
  {
    OnDay(lessons, (l: Lesson) => l.date, date)
  }

  /** Lessons returned for two different days never overlap. */
  lemma LessonsForDateDisjoint(lessons: seq<Lesson>, d1: Instant, d2: Instant)
    requires !SameDay(d1, d2)
    ensures forall l :: !(l in LessonsForDate(lessons, d1) && l in LessonsForDate(lessons, d2))
    ensures |LessonsForDate(lessons, d1)| + |LessonsForDate(lessons, d2)| <= |lessons|
  {
    OnDayDisjoint(lessons, (l: Lesson) => l.date, d1, d2);
  }
}

=== FILE: scheduled_tasks.dfy ===
/** The scheduled-tasks store (`class ScheduledTasks`): timed tasks created from a 12-hour
    form on the selected day and queried by the day they start. */
module ScheduledTasks {
  import opened Wrappers
  import opened Seqs
  import opened Dates
  import opened Text

  datatype Meridiem = AM | PM

  /** The form's conversion to a 24-hour clock: PM adds 12 except at 12 PM, 12 AM is hour 0,
      anything else is kept. */
  function To24Hour(hour12: int, m: Meridiem): (h: int)
    ensures 1 <= hour12 <= 12 ==> 0 <= h < 24
    ensures 1 <= hour12 <= 12 ==> (h >= 12 <==> m.PM?)
  {
    if m.PM? && hour12 != 12 then hour12 + 12
    else if m.AM? && hour12 == 12 then 0
    else hour12
  }

  /** The hour part of `formatTime`: `hour % 12 || 12`, with PM from noon on. */
  function To12Hour(hour: int): (p: (int, Meridiem))
    ensures 0 <= hour < 24 ==> 1 <= p.0 <= 12
    ensures 0 <= hour < 24 ==> To24Hour(p.0, p.1) == hour
  {
    (if hour % 12 == 0 then 12 else hour % 12, if hour >= 12 then PM else AM)
  }

  /** Converting a form hour to the 24-hour clock and formatting it back gives the form's hour
      and meridiem. */
  lemma ClockRoundTrip(hour12: int, m: Meridiem)
    requires 1 <= hour12 <= 12
    ensures To12Hour(To24Hour(hour12, m)) == (hour12, m)
  {
  }

  datatype Task = Task(id: string, name: string, description: string, link: string,
                       startTime: Instant, endTime: Instant, dayKey: int)

  /** The task form as submitted: raw texts and the two 12-hour times. Hours come from a
      1..12 list and minutes from a 0..59 list. */
  datatype TaskForm = TaskForm(name: string, description: string, link: string,
                               startHour: int, startMinute: int, startMeridiem: Meridiem,
                               endHour: int, endMinute: int, endMeridiem: Meridiem)

  /** Why `saveTask` refuses a form. */
  datatype TaskError = NameRequired | EndNotAfterStart

  /** The instant the form's start time denotes on the selected day. */
  function StartOf(f: TaskForm, selectedDate: Instant): Instant
  {
    AtTime(DayOf(selectedDate), To24Hour(f.startHour, f.startMeridiem), f.startMinute)
  }

  /** The instant the form's end time denotes on the selected day. */
  function EndOf(f: TaskForm, selectedDate: Instant): Instant
  {
    AtTime(DayOf(selectedDate), To24Hour(f.endHour, f.endMeridiem), f.endMinute)
  }

  /** `saveTask`: a blank name is refused first, then an end that is not after the start;
      otherwise a task spanning the two times on the selected day is appended. A refusal
      leaves the store as it was. */
  function SaveTask(tasks: seq<Task>, f: TaskForm, selectedDate: Instant, id: string)
    : (r: Result<seq<Task>, TaskError>)
    ensures r == Failure(NameRequired) <==> IsBlank(f.name)
    ensures r == Failure(EndNotAfterStart) <==>
      !IsBlank(f.name) && EndOf(f, selectedDate) <= StartOf(f, selectedDate)
    ensures r.Success? ==>
      && |r.value| == |tasks| + 1
      && r.value[..|tasks|] == tasks
      && var t := r.value[|tasks|];
         && t.id == id
         && t.name == Trim(f.name) != []
         && t.description == Trim(f.description)
         && t.link == Trim(f.link)
         && t.startTime == StartOf(f, selectedDate)
         && t.endTime == EndOf(f, selectedDate)
         && t.startTime < t.endTime
         && t.dayKey == DayOf(selectedDate)
    ensures r.Success? && 1 <= f.startHour <= 12 && 0 <= f.startMinute < 60
            && 1 <= f.endHour <= 12 && 0 <= f.endMinute < 60 ==>
      var t := r.value[|tasks|];
      SameDay(t.startTime, selectedDate) && SameDay(t.endTime, selectedDate)
      && t.dayKey == DayOf(t.startTime)
      && t.startTime - Midnight(t.startTime)
         == 60 * To24Hour(f.startHour, f.startMeridiem) + f.startMinute
      && t.endTime - Midnight(t.endTime)
         == 60 * To24Hour(f.endHour, f.endMeridiem) + f.endMinute
  {
    var name := Trim(f.name);
    if name == [] then Failure(NameRequired)
    else
      var start := StartOf(f, selectedDate);
      var end := EndOf(f, selectedDate);
      if end <= start then Failure(EndNotAfterStart)
      else Success(tasks + [Task(id, name, Trim(f.description), Trim(f.link), start, end,
                                 DayOf(selectedDate))])
  }

  /** A form whose times lie on the same clock face with the end not later than the start
      (2:00 PM to 1:00 PM, say) is refused whatever the day. */
  lemma RejectsBackwardsExample(tasks: seq<Task>, selectedDate: Instant)
    ensures SaveTask(tasks, TaskForm("Study", "", "", 2, 0, PM, 1, 0, PM), selectedDate, "t")
            == Failure(EndNotAfterStart)
  {
  }

  /** `getTasksForDate`: the tasks whose start time falls on `date`'s day, in storage order.
      A task is found only on the day it starts. */
  function TasksForDate(tasks: seq<Task>, date: Instant): (r: seq<Task>)
    ensures IsSubseq(r, tasks)
    ensures forall t :: t in r <==> t in tasks && SameDay(t.startTime, date)
    ensures forall t :: multiset(r)[t] == if SameDay(t.startTime, date) then multiset(tasks)[t] else 0
  {
    OnDay(tasks, (t: Task) => t.startTime, date)
  }

  /** Every task `saveTask` stores from a form with in-range times is found on the selected
      day, and on no other day, with days counted at UTC offset 0. */
  lemma SavedTaskFoundOnItsDay(tasks: seq<Task>, f: TaskForm, selectedDate: Instant, id: string,
                               other: Instant)
    requires 1 <= f.startHour <= 12 && 0 <= f.startMinute < 60
    requires 1 <= f.endHour <= 12 && 0 <= f.endMinute < 60
    requires SaveTask(tasks, f, selectedDate, id).Success?
    requires !SameDay(other, selectedDate)
    ensures var saved := SaveTask(tasks, f, selectedDate, id).value;
      saved[|tasks|] in TasksForDate(saved, selectedDate)
      && saved[|tasks|] !in TasksForDate(saved, other)
  {
  }
}

=== FILE: seqs.dfy ===
/** Order-preserving list operations shared by every store (`Array.prototype.filter`,
    `findIndex`, `splice`, `reduce`). */
module Seqs {

  /** `a` occurs in `b` in the same order, possibly with gaps. */
  predicate IsSubseq<T(==,!new)>(a: seq<T>, b: seq<T>)
    decreases |b|
  {
    if |a| == 0 then true
    else if |b| == 0 then false
    else if a[0] == b[0] then IsSubseq(a[1..], b[1..])
    else IsSubseq(a, b[1..])
  }

  /** `xs.filter(keep)`: the elements satisfying `keep`, each as often as in `xs`, in order. */
  function Filter<T(==,!new)>(xs: seq<T>, keep: T -> bool): (r: seq<T>)
    ensures |r| <= |xs|
    ensures forall x :: x in r <==> x in xs && keep(x)
    ensures forall x :: multiset(r)[x] == if keep(x) then multiset(xs)[x] else 0
    ensures IsSubseq(r, xs)
  {
    if |xs| == 0 then []
    else
      var rest := Filter(xs[1..], keep);
      assert xs == [xs[0]] + xs[1..];
      assert multiset(xs) == multiset{xs[0]} + multiset(xs[1..]);
      if keep(xs[0]) then
        assert ([xs[0]] + rest)[1..] == rest;
        assert multiset([xs[0]] + rest) == multiset{xs[0]} + multiset(rest);
        [xs[0]] + rest
      else
        assert |rest| > 0 ==> rest[0] in rest && rest[0] != xs[0];
        rest
  }

  /** `xs.findIndex(p)`: the first index whose element satisfies `p`, or -1. */
  function FirstIndex<T>(xs: seq<T>, p: T -> bool): (r: int)
    ensures -1 <= r < |xs|
    ensures r == -1 <==> forall i :: 0 <= i < |xs| ==> !p(xs[i])
    ensures 0 <= r ==> p(xs[r]) && forall j :: 0 <= j < r ==> !p(xs[j])
  {
    if |xs| == 0 then -1
    else if p(xs[0]) then 0
    else
      var k := FirstIndex(xs[1..], p);
      if k == -1 then -1 else k + 1
  }

  /** `xs.splice(i, 1)`: the list without its element at `i`. */
  function RemoveAt<T>(xs: seq<T>, i: nat): (r: seq<T>)
    requires i < |xs|
    ensures |r| == |xs| - 1
    ensures forall j :: 0 <= j < i ==> r[j] == xs[j]
    ensures forall j :: i <= j < |r| ==> r[j] == xs[j + 1]
  {
    xs[..i] + xs[i + 1..]
  }

  /** `xs.reduce((s, x) => s + f(x), 0)`. A sum of non-negative values is non-negative, and
      zero exactly when every value is. */
  function SumOf<T>(xs: seq<T>, f: T -> int): (r: int)
    ensures (forall i :: 0 <= i < |xs| ==> f(xs[i]) >= 0) ==>
      r >= 0 && (r == 0 <==> forall i :: 0 <= i < |xs| ==> f(xs[i]) == 0)
  {
    if |xs| == 0 then 0
    else
      assert forall i :: 0 <= i < |xs| - 1 ==> xs[1..][i] == xs[i + 1];
      f(xs[0]) + SumOf(xs[1..], f)
  }

  /** `reduce` accumulates left to right: the sum is the prefix's sum plus the last value. */
  lemma {:induction false} SumOfLast<T>(xs: seq<T>, f: T -> int)
    requires |xs| > 0
    ensures SumOf(xs, f) == SumOf(xs[..|xs| - 1], f) + f(xs[|xs| - 1])
  {
    if |xs| > 1 {
      assert xs[1..][..|xs| - 2] == xs[..|xs| - 1][1..];
      SumOfLast(xs[1..], f);
    }
  }

  /** A sum of values in `[lo, hi]` lies between `|xs| * lo` and `|xs| * hi`. */
  lemma {:induction false} SumOfBounds<T>(xs: seq<T>, f: T -> int, lo: int, hi: int)
    requires forall i :: 0 <= i < |xs| ==> lo <= f(xs[i]) <= hi
    ensures |xs| * lo <= SumOf(xs, f) <= |xs| * hi
  {
    if |xs| > 0 {
      assert forall i :: 0 <= i < |xs| - 1 ==> xs[1..][i] == xs[i + 1];
      SumOfBounds(xs[1..], f, lo, hi);
      assert SumOf(xs, f) == f(xs[0]) + SumOf(xs[1..], f);
      assert |xs| * lo == (|xs| - 1) * lo + lo && |xs| * hi == (|xs| - 1) * hi + hi;
    }
  }

  /** Elements satisfying two exclusive conditions are counted apart: the two filters
      share no element and together take no more than the list. */
  lemma {:induction false} FilterExclusive<T(!new)>(xs: seq<T>, p: T -> bool, q: T -> bool)
    requires forall x :: !(p(x) && q(x))
    ensures forall x :: !(x in Filter(xs, p) && x in Filter(xs, q))
    ensures |Filter(xs, p)| + |Filter(xs, q)| <= |xs|
  {
    if |xs| > 0 {
      FilterExclusive(xs[1..], p, q);
    }
  }

  /** Two conditions that agree on every element of `xs` select the same elements. */
  lemma {:induction false} FilterAgree<T(!new)>(xs: seq<T>, p: T -> bool, q: T -> bool)
    requires forall i :: 0 <= i < |xs| ==> p(xs[i]) == q(xs[i])
    ensures Filter(xs, p) == Filter(xs, q)
  {
    if |xs| > 0 {
      FilterAgree(xs[1..], p, q);
    }
  }

  /** Replacing one element changes a sum by the difference of the two values. */
  lemma {:induction false} SumOfUpdate<T>(xs: seq<T>, k: nat, v: T, f: T -> int)
    requires k < |xs|
    ensures SumOf(xs[k := v], f) == SumOf(xs, f) - f(xs[k]) + f(v)
  {
    if k > 0 {
      assert xs[k := v][1..] == xs[1..][k - 1 := v];
      SumOfUpdate(xs[1..], k - 1, v, f);
    } else {
      assert xs[k := v][1..] == xs[1..];
    }
  }

  /** Removing one element takes its value out of a sum. */
  lemma {:induction false} SumOfRemoveAt<T>(xs: seq<T>, k: nat, f: T -> int)
    requires k < |xs|
    ensures SumOf(RemoveAt(xs, k), f) == SumOf(xs, f) - f(xs[k])
  {
    if k > 0 {
      assert RemoveAt(xs, k)[1..] == RemoveAt(xs[1..], k - 1);
      SumOfRemoveAt(xs[1..], k - 1, f);
    } else {
      assert RemoveAt(xs, k) == xs[1..];
    }
  }

  /** Filtering twice keeps the elements that pass both conditions. */
  lemma {:induction false} FilterFilter<T(!new)>(xs: seq<T>, p: T -> bool, q: T -> bool, both: T -> bool)
    requires forall x :: both(x) == (p(x) && q(x))
    ensures Filter(Filter(xs, p), q) == Filter(xs, both)
  {
    if |xs| > 0 {
      FilterFilter(xs[1..], p, q, both);
      if p(xs[0]) {
        assert Filter(xs, p) == [xs[0]] + Filter(xs[1..], p);
        assert Filter(xs, p)[1..] == Filter(xs[1..], p);
      }
    }
  }

  /** Replacing one element changes how many elements pass a filter only by whether the old
      and the new element pass. */
  lemma {:induction false} FilterCountUpdate<T(!new)>(xs: seq<T>, k: nat, v: T, p: T -> bool)
    requires k < |xs|
    ensures |Filter(xs[k := v], p)| ==
      |Filter(xs, p)| - (if p(xs[k]) then 1 else 0) + (if p(v) then 1 else 0)
  {
    var ys := xs[k := v];
    assert Filter(xs, p) == (if p(xs[0]) then [xs[0]] else []) + Filter(xs[1..], p);
    assert Filter(ys, p) == (if p(ys[0]) then [ys[0]] else []) + Filter(ys[1..], p);
    if k > 0 {
      assert ys[0] == xs[0];
      assert ys[1..] == xs[1..][k - 1 := v];
      FilterCountUpdate(xs[1..], k - 1, v, p);
    } else {
      assert ys[0] == v;
      assert ys[1..] == xs[1..];
    }
  }
}

=== FILE: spaced_repetition.dfy ===
/** The spaced-repetition scheduler (`class SpacedRepetition`): one reminder per lesson added
    for review, climbing a fixed ladder of review intervals until it retires. */
module SpacedRepetition {
  import opened Seqs
  import opened Dates
  import opened Lessons

  /** Days until the next review, indexed by stage. */
  const Intervals: seq<nat> := [1, 7, 21, 50, 120]

  /** The display status, recomputed by `checkOverdueReminders`. */
  datatype Status = Normal | Warning | Overdue

  datatype Reminder = Reminder(id: string, lessonId: string, lessonTitle: string,
                               originalDate: Instant, reviewDate: Instant, status: Status,
                               stage: nat)

  /** Every stored reminder is on a rung of the ladder. */
  predicate WellStaged(rs: seq<Reminder>)
  {
    forall i :: 0 <= i < |rs| ==> rs[i].stage < |Intervals|
  }

  /** `reminders.findIndex(reminder => reminder.id === id)`. */
  function IndexOf(rs: seq<Reminder>, id: string): int
  {
    FirstIndex(rs, (x: Reminder) => x.id == id)
  }

  /** `addLesson`: a reminder for `lesson` is appended at stage 0, due tomorrow, with a copy of
      the lesson's title taken now. */
  function AddLesson(rs: seq<Reminder>, lesson: Lesson, now: Instant, id: string): (r: seq<Reminder>)
    ensures |r| == |rs| + 1 && r[..|rs|] == rs
    ensures var n := r[|rs|];
      && n.id == id
      && n.lessonId == lesson.id
      && n.lessonTitle == lesson.title
      && n.originalDate == now
      && DayOf(n.reviewDate) == DayOf(now) + 1
      && n.reviewDate - Midnight(n.reviewDate) == now - Midnight(now)
      && n.status == Normal
      && n.stage == 0
    ensures WellStaged(rs) ==> WellStaged(r)
  {
    rs + [Reminder(id, lesson.id, lesson.title, now, AddDays(now, 1), Normal, 0)]
  }

  /** `completeReminder`: the first reminder with `id` climbs one stage; past the last stage
      it is removed, otherwise it is next due the new stage's interval after today.
      An unknown id changes nothing. */
  function CompleteReminder(rs: seq<Reminder>, id: string, now: Instant): (r: seq<Reminder>)
    ensures IndexOf(rs, id) == -1 ==> r == rs
    ensures var k := IndexOf(rs, id);
      k != -1 && rs[k].stage + 1 >= |Intervals| ==>
        && |r| == |rs| - 1
        && (forall j :: 0 <= j < k ==> r[j] == rs[j])
        && (forall j :: k <= j < |r| ==> r[j] == rs[j + 1])
    ensures var k := IndexOf(rs, id);
      k != -1 && rs[k].stage + 1 < |Intervals| ==>
        && |r| == |rs|
        && (forall j :: 0 <= j < |rs| && j != k ==> r[j] == rs[j])
        && r[k].stage == rs[k].stage + 1
        && DayOf(r[k].reviewDate) == DayOf(now) + Intervals[r[k].stage]
        && r[k].reviewDate - Midnight(r[k].reviewDate) == now - Midnight(now)
        && r[k].status == Normal
        && r[k] == rs[k].(stage := r[k].stage, reviewDate := r[k].reviewDate, status := r[k].status)
    ensures WellStaged(rs) ==> WellStaged(r)
  {
    var k := IndexOf(rs, id);
    if k == -1 then rs
    else
      var stage := rs[k].stage + 1;
      if stage >= |Intervals| then RemoveAt(rs, k)
      else
        var y := rs[k].(stage := stage, reviewDate := AddDays(now, Intervals[stage]), status := Normal);
        assert y.reviewDate - Midnight(y.reviewDate) == now - Midnight(now);
        rs[k := y]
  }

  /** `rescheduleReminder`: the first reminder with `id` is due tomorrow with status normal,
      on the same stage. An unknown id changes nothing. */
  function RescheduleReminder(rs: seq<Reminder>, id: string, now: Instant): (r: seq<Reminder>)
    ensures |r| == |rs|
    ensures IndexOf(rs, id) == -1 ==> r == rs
    ensures forall j :: 0 <= j < |rs| && j != IndexOf(rs, id) ==> r[j] == rs[j]
    ensures var k := IndexOf(rs, id);
      k != -1 ==>
        && DayOf(r[k].reviewDate) == DayOf(now) + 1
        && r[k].reviewDate - Midnight(r[k].reviewDate) == now - Midnight(now)
        && r[k].status == Normal
        && r[k].stage == rs[k].stage
        && r[k] == rs[k].(reviewDate := r[k].reviewDate, status := r[k].status)
    ensures WellStaged(rs) ==> WellStaged(r)
  {
    var k := IndexOf(rs, id);
    if k == -1 then rs
    else rs[k := rs[k].(reviewDate := AddDays(now, 1), status := Normal)]
  }

  /** `deleteReminder`: the first reminder with `id` is removed. */
  function DeleteReminder(rs: seq<Reminder>, id: string): (r: seq<Reminder>)
    ensures IndexOf(rs, id) == -1 ==> r == rs
    ensures IndexOf(rs, id) != -1 ==>
      |r| == |rs| - 1 && multiset(r) + multiset{rs[IndexOf(rs, id)]} == multiset(rs)
    ensures var k := IndexOf(rs, id);
      k != -1 ==>
        && (forall j :: 0 <= j < k ==> r[j] == rs[j])
        && (forall j :: k <= j < |r| ==> r[j] == rs[j + 1])
    ensures forall x :: x in r ==> x in rs
    ensures WellStaged(rs) ==> WellStaged(r)
  {
    var k := IndexOf(rs, id);
    if k == -1 then rs
    else
      assert rs == rs[..k] + [rs[k]] + rs[k + 1..];
      RemoveAt(rs, k)
  }

  /** `removeRemindersByLessonId`: exactly the reminders of other lessons survive, each as
      often as before and in their original order. */
  function RemoveRemindersByLessonId(rs: seq<Reminder>, lessonId: string): (r: seq<Reminder>)
    ensures IsSubseq(r, rs)
    ensures forall x :: x in r <==> x in rs && x.lessonId != lessonId
    ensures forall x: Reminder :: x.lessonId != lessonId ==> multiset(r)[x] == multiset(rs)[x]
    ensures WellStaged(rs) ==> WellStaged(r)
  {
    Filter(rs, (x: Reminder) => x.lessonId != lessonId)
  }

  /** One reminder's pass of `checkOverdueReminders`, by whole calendar days late:
      none (or early) is normal, one is a warning, two or more is overdue and the review is
      pushed to the current stage's interval from today, without changing the stage. */
  function Recheck(x: Reminder, now: Instant): (y: Reminder)
    requires x.stage < |Intervals|
    ensures y == x.(status := y.status, reviewDate := y.reviewDate)
    ensures var late := DayOf(now) - DayOf(x.reviewDate);
      && (late <= 0 ==> y.status == Normal && y.reviewDate == x.reviewDate)
      && (late == 1 ==> y.status == Warning && y.reviewDate == x.reviewDate)
      && (late >= 2 ==>
            && y.status == Overdue
            && DayOf(y.reviewDate) == DayOf(now) + Intervals[x.stage]
            && y.reviewDate - Midnight(y.reviewDate) == now - Midnight(now))
    ensures DayOf(now) - DayOf(y.reviewDate) <= 1
  {
    var daysDiff := DaysBetween(x.reviewDate, now);
    if daysDiff > 0 then
      if daysDiff == 1 then x.(status := Warning)
      else if daysDiff >= 2 then x.(status := Overdue, reviewDate := AddDays(now, Intervals[x.stage]))
      else x
    else x.(status := Normal)
  }

  /** `checkOverdueReminders`: every reminder is rechecked against today, in place. */
  function CheckOverdueReminders(rs: seq<Reminder>, now: Instant): (r: seq<Reminder>)
    requires WellStaged(rs)
    ensures |r| == |rs|
    ensures forall i :: 0 <= i < |rs| ==> r[i] == Recheck(rs[i], now)
    ensures WellStaged(r)
  {
    seq(|rs|, i requires 0 <= i < |rs| => Recheck(rs[i], now))
  }

  /** `getRemindersForDate`: the reminders due on `date`'s calendar day, in storage order. */
  function RemindersForDate(rs: seq<Reminder>, date: Instant): (r: seq<Reminder>)
    ensures IsSubseq(r, rs)
    ensures forall x :: x in r <==> x in rs && SameDay(x.reviewDate, date)
    ensures forall x :: multiset(r)[x] == if SameDay(x.reviewDate, date) then multiset(rs)[x] else 0
  {
    OnDay(rs, (x: Reminder) => x.reviewDate, date)
  }

  /** The result of `getReviewsStats`. */
  datatype Stats = Stats(completed: int, pending: nat, overdue: nat)

  /** `getCompletedReviewCount`: the stages of the live reminders added up, one completed
      review per stage climbed. It is never negative, zero exactly when no reminder has
      climbed, and at most four per reminder on the ladder. */
  function StageTotal(rs: seq<Reminder>): (r: int)
    ensures r >= 0
    ensures r == 0 <==> forall i :: 0 <= i < |rs| ==> rs[i].stage == 0
    ensures WellStaged(rs) ==> r <= (|Intervals| - 1) * |rs|
  {
    if WellStaged(rs) then
      SumOfBounds(rs, (x: Reminder) => x.stage as int, 0, |Intervals| - 1);
      SumOf(rs, (x: Reminder) => x.stage)
    else
      SumOf(rs, (x: Reminder) => x.stage)
  }

  /** The reminders whose review day is before today. */
  function DueBeforeToday(rs: seq<Reminder>, now: Instant): (r: seq<Reminder>)
    ensures forall x :: x in r <==> x in rs && DayOf(x.reviewDate) < DayOf(now)
    ensures forall x :: multiset(r)[x] == if DayOf(x.reviewDate) < DayOf(now) then multiset(rs)[x] else 0
  {
    Filter(rs, (x: Reminder) => Midnight(x.reviewDate) < Midnight(now))
  }

  /** `getReviewsStats(startDate, endDate)`: "completed" is the sum of the live reminders'
      stages (the date range is not used), "pending" is how many reminders are stored, and
      "overdue" is how many are due before today. */
  function ReviewStats(rs: seq<Reminder>, now: Instant): (s: Stats)
    ensures s.pending == |rs|
    ensures s.overdue <= s.pending
    ensures s.overdue == |DueBeforeToday(rs, now)|
    ensures s.completed == StageTotal(rs)
    ensures WellStaged(rs) ==> 0 <= s.completed <= (|Intervals| - 1) * s.pending
    ensures s.overdue == 0 <==> forall x :: x in rs ==> DayOf(now) <= DayOf(x.reviewDate)
  {
    if WellStaged(rs) then
      SumOfBounds(rs, (x: Reminder) => x.stage as int, 0, |Intervals| - 1);
      Stats(StageTotal(rs), |rs|, |DueBeforeToday(rs, now)|)
    else
      Stats(StageTotal(rs), |rs|, |DueBeforeToday(rs, now)|)
  }

  /** `completeReminder` applied once per entry of `days`, each at that moment. */
  function CompleteOn(rs: seq<Reminder>, id: string, days: seq<Instant>): seq<Reminder>
    decreases |days|
  {
    if |days| == 0 then rs else CompleteOn(CompleteReminder(rs, id, days[0]), id, days[1..])
  }

  /** A reminder at stage `s` survives fewer than `5 - s` completions, standing at its place
      with the stage raised by one per completion, and is removed by completion number
      `5 - s`, leaving every other reminder as it was. A new reminder (stage 0) is therefore
      reviewed five times. */
  lemma {:induction false} CompletionsRetire(rs: seq<Reminder>, id: string, days: seq<Instant>)
    requires WellStaged(rs)
    requires IndexOf(rs, id) != -1
    requires |days| <= |Intervals| - rs[IndexOf(rs, id)].stage
    ensures var k := IndexOf(rs, id); var r := CompleteOn(rs, id, days);
      |days| < |Intervals| - rs[k].stage ==>
        |r| == |rs| && IndexOf(r, id) == k && r[k].stage == rs[k].stage + |days|
        && (forall j :: 0 <= j < |rs| && j != k ==> r[j] == rs[j])
    ensures var k := IndexOf(rs, id);
      |days| == |Intervals| - rs[k].stage ==> CompleteOn(rs, id, days) == RemoveAt(rs, k)
    decreases |days|
  {
    var k := IndexOf(rs, id);
    if |days| > 0 {
      var once := CompleteReminder(rs, id, days[0]);
      if rs[k].stage + 1 < |Intervals| {
        assert IndexOf(once, id) == k by {
          assert forall j :: 0 <= j < |rs| ==> once[j].id == rs[j].id;
        }
        CompletionsRetire(once, id, days[1..]);
      } else {
        assert |days| == 1;
      }
    }
  }

  /** A second `checkOverdueReminders` on the same day moves no review date; it turns every
      reminder the first pass marked overdue back to normal and leaves the others as they
      were. */
  lemma CheckOverdueTwice(rs: seq<Reminder>, now: Instant)
    requires WellStaged(rs)
    ensures WellStaged(CheckOverdueReminders(rs, now))
    ensures var once := CheckOverdueReminders(rs, now);
      var twice := CheckOverdueReminders(once, now);
      forall i :: 0 <= i < |rs| ==>
        && twice[i].reviewDate == once[i].reviewDate
        && (once[i].status == Overdue ==> twice[i].status == Normal)
        && (once[i].status != Overdue ==> twice[i] == once[i])
  {
  }

  /** After `checkOverdueReminders` the overdue count of the statistics is the number of
      reminders in warning: those two or more days late were pushed into the future. */
  lemma OverdueCountAfterCheck(rs: seq<Reminder>, now: Instant)
    requires WellStaged(rs)
    ensures var once := CheckOverdueReminders(rs, now);
      ReviewStats(once, now).overdue == |Filter(once, (x: Reminder) => x.status == Warning)|
  {
    var once := CheckOverdueReminders(rs, now);
    forall i | 0 <= i < |once|
      ensures (Midnight(once[i].reviewDate) < Midnight(now)) == (once[i].status == Warning)
    {
      assert Intervals[rs[i].stage] >= 1;
    }
    FilterAgree(once, (x: Reminder) => Midnight(x.reviewDate) < Midnight(now),
                (x: Reminder) => x.status == Warning);
  }

  /** The "completed reviews" statistic rises by one when a reminder climbs a stage, but falls
      by four when a reminder retires: finished review sequences stop being counted. */
  lemma CompletedStatOnComplete(rs: seq<Reminder>, id: string, now: Instant)
    requires WellStaged(rs)
    requires IndexOf(rs, id) != -1
    ensures var k := IndexOf(rs, id); var after := CompleteReminder(rs, id, now);
      && (rs[k].stage + 1 < |Intervals| ==>
            ReviewStats(after, now).completed == ReviewStats(rs, now).completed + 1)
      && (rs[k].stage + 1 == |Intervals| ==>
            ReviewStats(after, now).completed == ReviewStats(rs, now).completed - (|Intervals| - 1))
  {
    var k := IndexOf(rs, id);
    var stage := rs[k].stage + 1;
    if stage >= |Intervals| {
      SumOfRemoveAt(rs, k, (x: Reminder) => x.stage as int);
    } else {
      SumOfUpdate(rs, k, rs[k].(stage := stage, reviewDate := AddDays(now, Intervals[stage]), status := Normal),
                  (x: Reminder) => x.stage as int);
    }
  }

  /** A reminder at stage 2 that is two days late becomes overdue and is next due 21 days from
      today, still at stage 2. */
  lemma OverdueKeepsStageExample(now: Instant)
    ensures var x := Reminder("r", "l", "t", now, AddDays(now, -2), Normal, 2);
      var y := Recheck(x, now);
      y.status == Overdue && DayOf(y.reviewDate) == DayOf(now) + 21 && y.stage == 2
  {
  }
}

=== FILE: streak.dfy ===
/** The daily-use streak of the user profile (`JournalApp.updateStreak`), over day numbers. */
module Streak {

  /** The stored streak count and the day the dashboard was last opened. */
  datatype Profile = Profile(streak: int, lastActive: int)

  /** `updateStreak` on day `today`: last active yesterday extends the streak, last active
      earlier restarts it at 1, last active today (or later) keeps it; the day is recorded. */
  function UpdateStreak(p: Profile, today: int): (q: Profile)
    ensures q.lastActive == today
    ensures p.lastActive == today - 1 ==> q.streak == p.streak + 1
    ensures p.lastActive < today - 1 ==> q.streak == 1
    ensures p.lastActive >= today ==> q == p.(lastActive := today)
  {
    var yesterday := today - 1;
    if p.lastActive == yesterday then Profile(p.streak + 1, today)
    else if p.lastActive < yesterday then Profile(1, today)
    else Profile(p.streak, today)
  }

  /** Opening the dashboard again on the same day changes nothing. */
  lemma UpdateStreakIdempotent(p: Profile, today: int)
    ensures UpdateStreak(UpdateStreak(p, today), today) == UpdateStreak(p, today)
  {
  }

  /** The profile after an update on each of `n` consecutive days starting at `first`. */
  function DailyUpdates(p: Profile, first: int, n: nat): Profile
    decreases n
  {
    if n == 0 then p else DailyUpdates(UpdateStreak(p, first), first + 1, n - 1)
  }

  /** Coming back every day for `n` days in a row after a day of use adds `n` to the streak;
      after a gap of a day or more it counts those `n` days afresh. */
  lemma {:induction false} ConsecutiveDays(p: Profile, first: int, n: nat)
    requires n > 0
    ensures DailyUpdates(p, first, n).lastActive == first + n - 1
    ensures p.lastActive == first - 1 ==> DailyUpdates(p, first, n).streak == p.streak + n
    ensures p.lastActive < first - 1 ==> DailyUpdates(p, first, n).streak == n
    decreases n
  {
    if n > 1 {
      ConsecutiveDays(UpdateStreak(p, first), first + 1, n - 1);
    }
  }
}

=== FILE: text.dfy ===
/** `String.prototype.trim`, used by every form that rejects a blank name or title. */
module Text {

  /** The white-space characters `trim` strips that this model recognises. */
  predicate IsSpace(c: char)
  {
    c == ' ' || c == '\t' || c == '\n' || c == '\r' || c == '\U{000B}' || c == '\U{000C}'
    || c == '\U{00A0}' || c == '\U{FEFF}'
  }

  /** A string with nothing but white space in it. */
  predicate IsBlank(s: string)
  {
    forall i :: 0 <= i < |s| ==> IsSpace(s[i])
  }

  /** The number of white-space characters at the start of `s`. */
  function LeadingSpaces(s: string): (n: nat)
    ensures n <= |s|
    ensures forall i :: 0 <= i < n ==> IsSpace(s[i])
    ensures n < |s| ==> !IsSpace(s[n])
  {
    if |s| == 0 || !IsSpace(s[0]) then 0 else 1 + LeadingSpaces(s[1..])
  }

  /** The length of `s` once its trailing white space is dropped. */
  function TrailingStart(s: string): (m: nat)
    ensures m <= |s|
    ensures forall i :: m <= i < |s| ==> IsSpace(s[i])
    ensures 0 < m ==> !IsSpace(s[m - 1])
  {
    if |s| == 0 || !IsSpace(s[|s| - 1]) then |s| else TrailingStart(s[..|s| - 1])
  }

  /** `s.trim()`: the contiguous middle of `s` that neither starts nor ends with white space;
      it is empty exactly when `s` is blank. */
  function Trim(s: string): (r: string)
    ensures |r| <= |s|
    ensures r == [] <==> IsBlank(s)
    ensures r != [] ==> !IsSpace(r[0]) && !IsSpace(r[|r| - 1])
    ensures LeadingSpaces(s) + |r| <= |s| && r == s[LeadingSpaces(s)..LeadingSpaces(s) + |r|]
    ensures forall i :: LeadingSpaces(s) + |r| <= i < |s| ==> IsSpace(s[i])
  {
    var n := LeadingSpaces(s);
    var m := TrailingStart(s);
    if m <= n then
      assert n == |s|;
      []
    else
      assert !IsSpace(s[n]);
      s[n..m]
  }
}

=== FILE: wrappers.dfy ===
/** Optional values and success/failure results used across the model. */
module Wrappers {

  /** A value that may be absent: a missing key, a NaN from `parseInt`, a `-1` from `findIndex`. */
  datatype Option<+T> = None | Some(value: T)

  /** The outcome of an operation that validates its input before changing a store. */
  datatype Result<+R, +E> = Success(value: R) | Failure(error: E)
}
